=== FILE: README.md ===
# ckanext-agsview map widget helper, modelled in Dafny

`ags_common.js` is the browser-side helper of the CKAN ArcGIS-server preview plugin.
It builds a Leaflet map with one base layer and keeps popups keyboard-accessible.
It also renders feature attributes into popup HTML for dynamic (vector) and tiled map layers.
This project models the decision rules under that glue as pure Dafny functions and proves properties about them:

- `Wrappers` (`wrappers.dfy`): the `Option` type used for JavaScript values that may be null or falsy.
- `JsRuntime` (`js_runtime.dfy`): the JavaScript built-ins the file relies on. These are `String.prototype.indexOf`, `Array.prototype.indexOf`, `Array.prototype.join` and the decimal rendering of `i + 1`.
- `Basemap` (`basemap.dfy`): `checkBasemap` and the choice between an Esri basemap, a custom XYZ tile layer and the default Stamen terrain layer.
- `FeatureRender` (`feature_render.dfy`): `singleFeature` and `manyFeatures`.
- `PopupContent` (`popup_content.dfy`): the content callback of `commonDynamicLayerInfo` and the click handler of `commonTiledLayerInfo`.
- `FocusTrap` (`focus_trap.dfy`): the initial popup focus, the Tab / Shift+Tab trap, the focus-return handler and the Escape rule.
- `PopupLifecycle` (`popup_lifecycle.dfy`): the `popupopen` / `popupclose` bookkeeping of the three document listeners, as a small state machine.

Some external behaviour is passed in as parameters.
A `Formatter<V>` supplies three things: the list of date attribute names (the global `date_fields`), the host's conversion of a value to text, and `new Date(value).toLocaleString(...)`.
The identify query is reduced to its outcome.
That outcome is `err` (`None` when falsy, otherwise its text) and an optional collection whose `features` may be missing.
DOM elements are abstract identities.

Three details of `ags_common.js` that are easy to misread:
- A custom tile URL gets no subdomain or attribution options: `mapConfig` only ever holds `type` and `url`.
- The two focus-trap listeners are registered only when the popup has a container. The Escape listener is always registered.
- The tiled-layer error content does not contain the `Error` label (see Findings).

## Model

| member | source | states |
|---|---|---|
| JsRuntime.IndexOf | ckanext/agsview/public/js/ags_common.js:31 | `indexOf` is -1 exactly when the pattern does not occur; otherwise it is the first position where it occurs |
| JsRuntime.SeqIndexOf | ckanext/agsview/public/js/ags_common.js:167 | array `indexOf` is -1 exactly when the element is absent; otherwise it is the first index holding it |
| JsRuntime.NumberToString | ckanext/agsview/public/js/ags_common.js:187 | the number in a `Feature: N` label is a non-empty string of digits with no leading zero |
| JsRuntime.ParseNumberToString | ckanext/agsview/public/js/ags_common.js:187 | reading the label digits back gives the number written |
| JsRuntime.NumberToStringInjective | ckanext/agsview/public/js/ags_common.js:187 | different block numbers give different labels |
| JsRuntime.PartInJoin | ckanext/agsview/public/js/ags_common.js:180 | every joined part appears verbatim, after the parts before it and their separators |
| JsRuntime.JoinSnoc | ckanext/agsview/public/js/ags_common.js:188 | joining one more part appends exactly one separator and that part |
| Basemap.CheckBasemap | ckanext/agsview/public/js/ags_common.js:30-32 | true exactly when the URL contains `{x}`, `{y}` and `{z}`, in any order and at any position |
| Basemap.ResolveMapConfig | ckanext/agsview/public/js/ags_common.js:35-43 | `mapConfig` is custom with that URL exactly when the setting is a string that is a tile template; otherwise it is Stamen |
| Basemap.CreateBaseLayer | ckanext/agsview/public/js/ags_common.js:27-67 | a whitelisted name gives that Esri basemap, and only a whitelisted name does. A non-whitelisted template gives a tile layer with exactly that URL and no subdomains or attribution. Anything else gives the Stamen terrain layer with subdomains `abcd` and the fixed attribution. Anything else includes an unset value, a non-string, the empty string and a string missing a token |
| Basemap.EsriNamesAreNotTemplates | ckanext/agsview/public/js/ags_common.js:27-32 | no whitelisted name passes `checkBasemap` |
| Basemap.DispatchOrderIrrelevant | ckanext/agsview/public/js/ags_common.js:38-67 | choosing by `mapConfig` first and by the whitelist second gives the same layer |
| Basemap.StamenUrlIsTemplate | ckanext/agsview/public/js/ags_common.js:61 | the default Stamen URL itself passes `checkBasemap` |
| Basemap.ExplicitStamenUrlDiffersFromDefault | ckanext/agsview/public/js/ags_common.js:38-64 | configuring the Stamen URL explicitly yields a custom layer without `abcd` or the attribution, which differs from the default layer |
| FeatureRender.DisplayValue | ckanext/agsview/public/js/ags_common.js:166-178 | a key listed among the date fields shows the formatted date; any other key shows its raw value |
| FeatureRender.SingleFeatureListsEveryAttribute | ckanext/agsview/public/js/ags_common.js:162-181 | line i of the `<div>` opens with `<span><strong>key_i:</strong> ` and continues with the unescaped display value of key i, after the earlier lines and their `<br/>` separators |
| FeatureRender.SingleFeatureAppend | ckanext/agsview/public/js/ags_common.js:165-180 | adding an attribute adds one `<br/>` and one line at the end and leaves the earlier output unchanged |
| FeatureRender.SingleFeatureEmpty | ckanext/agsview/public/js/ags_common.js:165-180 | a feature without attributes renders as `<div></div>` |
| FeatureRender.ManyFeaturesBlockAt | ckanext/agsview/public/js/ags_common.js:185-189 | block i sits after the blocks before it and opens with the heading `Feature: i+1`. It wraps `singleFeature` of feature i |
| FeatureRender.ManyFeaturesAppend | ckanext/agsview/public/js/ags_common.js:185-189 | adding a feature adds exactly one block at the end, numbered one past the previous count, inside the single outer `<div>` |
| FeatureRender.ManyFeaturesLength | ckanext/agsview/public/js/ags_common.js:185-189 | the output is the outer `<div>` and the blocks back to back, with nothing between them |
| PopupContent.RenderFeatures | ckanext/agsview/public/js/ags_common.js:162-189 | whether one feature or several are rendered, the popup body opens with `<div>` and ends with `</div>` |
| PopupContent.DynamicLayerContent | ckanext/agsview/public/js/ags_common.js:192-199 | the callback returns `false` exactly when `err` is set or there are no features; otherwise it returns the rendering of the features |
| PopupContent.TiledLayerContentAsWritten | ckanext/agsview/public/js/ags_common.js:211-225 | the error content as written is `err + '</span>'`; every other case is the same as in the corrected handler |
| PopupContent.ErrorContent | ckanext/agsview/public/js/ags_common.js:213 | the intended error content opens with the `Error` label, then shows the error text, then closes the `<span>` |
| PopupContent.TiledLayerContent | ckanext/agsview/public/js/ags_common.js:211-225 | with the error message corrected (see Findings), the checks run in order: error content, then `No features found`, then the single rendering, then the many rendering |
| PopupContent.TiledLayerClickSettles | ckanext/agsview/public/js/ags_common.js:209-225 | with the error message corrected, a click first shows `<span>loading</span>` and always ends on content that differs from it. Wherever the dynamic layer would show a popup, the click ends on the same HTML |
| PopupContent.ErrorAsWrittenLooksLikeLoading | ckanext/agsview/public/js/ags_common.js:209-213 | as written, an error whose text is `<span>loading` leaves the popup showing exactly the loading placeholder |
| PopupContent.DynamicAgreesWithTiled | ckanext/agsview/public/js/ags_common.js:191-225 | the two layer kinds show the same HTML wherever the dynamic layer shows a popup. Where it shows none, the tiled layer shows the error (corrected error content, see Findings) or `No features found` |
| PopupContent.ErrorLabelDropped | ckanext/agsview/public/js/ags_common.js:213 | for the error text `timeout`, the as-written content is `timeout</span>`, with no `Error` label and no opening `<span>` |
| PopupContent.ErrorContentLabelled | ckanext/agsview/public/js/ags_common.js:213 | for every error, the corrected content opens a `<span>`, contains `Error` and contains the error text |
| FocusTrap.OpenFocusTarget | ckanext/agsview/public/js/ags_common.js:80-88 | on open, focus goes to the content node if there is one, else to the container, and always inside the popup |
| FocusTrap.OpenFocusNotReturned | ckanext/agsview/public/js/ags_common.js:80-124 | the initial focus target never sets off the focus-return handler |
| FocusTrap.TabTrap | ckanext/agsview/public/js/ags_common.js:91-112 | only keyCode 9 with an open popup is handled; a popup with no element throws. Focus moves only from inside the popup: Shift+Tab from first (content, else close button) goes to last (close button, else content), and Tab goes from last to first |
| FocusTrap.TabTrapWraps | ckanext/agsview/public/js/ags_common.js:96-111 | Shift+Tab on the first element focuses the last, and Tab on the last focuses the first |
| FocusTrap.TabTrapStaysInside | ckanext/agsview/public/js/ags_common.js:91-112 | the trap never moves focus outside the popup |
| FocusTrap.TabTrapInverse | ckanext/agsview/public/js/ags_common.js:101-111 | a Tab wrap is undone by Shift+Tab, and a Shift+Tab wrap is undone by Tab |
| FocusTrap.TabTrapOnlyAtEdges | ckanext/agsview/public/js/ags_common.js:98-111 | on any element other than the wrapping edge, Tab is left to the browser |
| FocusTrap.FocusReturn | ckanext/agsview/public/js/ags_common.js:116-124 | focus landing outside the popup is sent back to the content node when it exists. Focus inside the popup is left alone, and a popup with no element throws |
| FocusTrap.FocusReturnSettles | ckanext/agsview/public/js/ags_common.js:116-124 | the element focus is returned to is inside the popup, so it does not trigger another return |
| FocusTrap.EscapeCloses | ckanext/agsview/public/js/ags_common.js:129-135 | Escape closes the popup only for keyCode 27 and only while a popup is open |
| FocusTrap.EscapeHonoursOption | ckanext/agsview/public/js/ags_common.js:130 | an open popup closes on Escape unless `closeOnEscapeKey` is literally `false` |
| FocusTrap.EscapeAndTrapDisjoint | ckanext/agsview/public/js/ags_common.js:92-130 | no key press both closes the popup and wraps focus |
| PopupLifecycle.OnPopupOpen | ckanext/agsview/public/js/ags_common.js:73-137 | open always stores and registers a new Escape handler. It creates new trap handlers only when the popup has a container, and otherwise keeps the old variables. The document gains exactly the new handlers |
| PopupLifecycle.OnPopupClose | ckanext/agsview/public/js/ags_common.js:138-150 | close clears all three variables and removes exactly the handlers they held |
| PopupLifecycle.CloseIdempotent | ckanext/agsview/public/js/ags_common.js:138-150 | a second close is a no-op |
| PopupLifecycle.CloseLeavesNoListener | ckanext/agsview/public/js/ags_common.js:138-150 | from a paired state (the document holds exactly the handlers the variables hold), close leaves no keydown or focusin listener |
| PopupLifecycle.OpenKeepsPairing | ckanext/agsview/public/js/ags_common.js:73-137 | an open after a close registers Escape plus, with a container, the keydown and focusin traps, and nothing else |
| PopupLifecycle.OpenCloseRestores | ckanext/agsview/public/js/ags_common.js:73-150 | when no handler is held before the open and every registered listener was created earlier, open then close leaves the document's listeners as they were |
| PopupLifecycle.HeldAtMostThree | ckanext/agsview/public/js/ags_common.js:70-72 | at most three handlers are held at once |
| PopupLifecycle.RunKeepsPairing | ckanext/agsview/public/js/ags_common.js:70-150 | in any run where each open follows a close, the registered listeners are exactly the held handlers, and there are at most three |
| PopupLifecycle.OpenTwiceLeaks | ckanext/agsview/public/js/ags_common.js:70-150 | two opens without a close leave the first popup's three handlers registered after the next close |
| PopupLifecycle.EscapeOnlyWhileOpen | ckanext/agsview/public/js/ags_common.js:129-150 | from a paired state where no handler is held before the open, and unless `closeOnEscapeKey` is `false`, Escape closes the open popup; after the close, Escape reaches no handler |

## Findings

| source | as written | input that shows it | evidently intended | confidence | as-written member | corrected member |
|---|---|---|---|---|---|---|
| ckanext/agsview/public/js/ags_common.js:213 | `'<span><strong>Error</strong>: ' + err && err.toString() + '</span>'` parses as `(… + err) && (err.toString() + '</span>')`. The left operand is a non-empty string, so the content is `err.toString() + '</span>'` | an error whose text is `timeout` gives `timeout</span>` | `<span><strong>Error</strong>: timeout</span>` | high; not executed | PopupContent.ErrorLabelDropped | PopupContent.ErrorContentLabelled |

`PopupContent.TiledLayerClick` (the loading placeholder, then the final content) uses the corrected content. `PopupContent.TiledLayerContentAsWritten` keeps the behaviour as written.

## Left out

- Leaflet and Esri objects: `L.Map`, `L.TileLayer`, `L.esri.BasemapLayer`, `addLayer`, `bindPopup` and the popup option `maxHeight: 200` are library calls. Only the chosen base-layer descriptor is modelled.
- Map options `maxZoom`, `keyboard` and `keyboardPanDelta`: cosmetic, and passed to every tile layer alike.
- `isHttps` (line 34): computed and never used.
- A missing `config` object: `config.basemap` would throw before any choice is made. The model starts from the value of `config.basemap`.
- DOM side effects: `setAttribute('tabindex', …)`, `focus()`, `addEventListener`, and the zero-delay `setTimeout` deferral. Handlers return the element to focus, and the document's listeners are a set.
- `map._popup.getElement` missing: Leaflet popups always have the method, so only a missing popup and a null element are modelled.
- `document.activeElement` being null: the model always has some active element.
- Focus return to `source._icon` on close (lines 151-157): DOM-only and best-effort; its failure is swallowed.
- The identify query (`layer.identify().at(…).run`): asynchronous. Only its outcome is an input. Two overlapping clicks can race, with a stale response overwriting a newer one; that is an event-loop concern and is not modelled.
- Date formatting and value-to-text conversion: they depend on locale, time zone and host runtime, so they are uninterpreted fields of `Formatter`.
- `features` that is not an array but has a truthy `length`: `features` is modelled as absent or a sequence.
- FocusTrap.EscapeCloses, PopupLifecycle.EscapeOnlyWhileOpen: these assume one map per page. `map` (line 51) is an implicit global that the key and focus handlers read (lines 92-93, 117-118, 130-131). With a second map on the page, the first map's handlers act on the second map's popup. The model gives each map its own popup.
- Implicit globals `baseLayerUrl` and `date_value`: they leak into the page scope and do not change any result modelled here.
- FeatureRender.SingleFeature: a feature whose `properties` is null or undefined makes `Object.keys` (line 164) throw. The model gives every feature a list of attributes. On a tiled layer the throw would leave `<span>loading</span>` in the popup.
- PopupLifecycle.RunKeepsPairing: it assumes that every open follows a close. Leaflet closes the open popup first only for popups whose `autoClose` option keeps its default `true`. Leaflet is not part of this model; `PopupLifecycle.OpenTwiceLeaks` shows what happens otherwise.

=== FILE: basemap.dfy ===
/**
 Base-layer selection of the map factory: the value of `config.basemap` decides between a
 named Esri basemap, a custom XYZ tile layer and the default Stamen terrain tiles.
 The Leaflet objects themselves are reduced to the descriptor of the layer that is added.
 */
module Basemap {
  import opened Wrappers
  import opened JsRuntime

  /** What `config.basemap` holds: nothing, something that is not a string, or a string. */
  datatype BasemapSetting = Unset | NonString | Text(s: string)

  /** The `mapConfig` record built before the layer is chosen. */
  datatype MapConfig = Stamen | Custom(url: string)

  /** The one base layer the factory adds to the map. */
  datatype BaseLayer =
    | EsriBasemap(name: string)
    | TileLayer(url: string, subdomains: Option<string>, attribution: Option<string>)

  /** Basemap names the Esri plugin knows, accepted verbatim. */
  const EsriBasemaps: seq<string> := [
    "Streets", "Topographic", "Oceans", "OceansLabels", "NationalGeographic", "Gray",
    "GrayLabels", "DarkGray", "DarkGrayLabels", "Imagery", "ImageryLabels",
    "ImageryTransportation", "ShadedRelief", "ShadedReliefLabels", "Terrain",
    "TerrainLabels", "USATopo"
  ]

  const StamenTerrainUrl: string := "https://stamen-tiles-{s}.a.ssl.fastly.net/terrain/{z}/{x}/{y}.png"
  const StamenSubdomains: string := "abcd"
  const StamenAttribution: string :=
    "Map tiles by <a href=\"http://stamen.com\">Stamen Design</a> (<a href=\"http://creativecommons.org/licenses/by/3.0\">CC BY 3.0</a>). Data by <a href=\"http://openstreetmap.org\">OpenStreetMap</a> (<a href=\"http://creativecommons.org/licenses/by-sa/3.0\">CC BY SA</a>)"

  /** The layer used whenever the setting names neither an Esri basemap nor a tile template. */
  const DefaultLayer: BaseLayer := TileLayer(StamenTerrainUrl, Some(StamenSubdomains), Some(StamenAttribution))

  /** A tile URL template must mention the column, row and zoom placeholders. */
  predicate IsTileTemplate(url: string) {
    Contains(url, "{x}") && Contains(url, "{y}") && Contains(url, "{z}")
  }

  /** `checkBasemap(url)`: the three `indexOf` tests. */
  function CheckBasemap(url: string): (ok: bool)
    ensures ok <==> IsTileTemplate(url)
  {
    IndexOf(url, "{x}") > -1 && IndexOf(url, "{y}") > -1 && IndexOf(url, "{z}") > -1
  }

  /** `mapConfig` after the first test: custom only for a truthy string that passes `checkBasemap`. */
  function ResolveMapConfig(b: BasemapSetting): (c: MapConfig)
    ensures c.Custom? <==> b.Text? && IsTileTemplate(b.s)
    ensures c.Custom? ==> c.url == b.s
  {
    if b.Text? && |b.s| > 0 && CheckBasemap(b.s) then Custom(b.s) else Stamen
  }

  /** The base layer `agsCreatemap` adds for a given `config.basemap`. */
  function CreateBaseLayer(b: BasemapSetting): (r: BaseLayer)
    ensures r.EsriBasemap? <==> b.Text? && b.s in EsriBasemaps
    ensures r.EsriBasemap? ==> r.name == b.s
    ensures r.TileLayer? && r.subdomains.None? <==> b.Text? && b.s !in EsriBasemaps && IsTileTemplate(b.s)
    ensures r.TileLayer? && r.subdomains.None? ==> r == TileLayer(b.s, None, None)
    ensures r == DefaultLayer <==> !(b.Text? && (b.s in EsriBasemaps || IsTileTemplate(b.s)))
  {
    var mapConfig := ResolveMapConfig(b);
    if b.Text? && SeqIndexOf(EsriBasemaps, b.s) > -1 then
      EsriBasemap(b.s)
    else
      match mapConfig
      case Custom(url) => TileLayer(url, None, None)
      case Stamen => TileLayer(StamenTerrainUrl, Some(StamenSubdomains), Some(StamenAttribution))
  }

  /** No whitelisted name is a tile template, so the order of the two tests never matters. */
  lemma EsriNamesAreNotTemplates()
    ensures forall name :: name in EsriBasemaps ==> !IsTileTemplate(name)
  {
    forall name | name in EsriBasemaps
      ensures !Contains(name, "{x}")
    {
      assert '{' !in name;
      AbsentFirstChar("{x}", name);
    }
  }

  /** The selection does not depend on which of the two tests runs first. */
  lemma DispatchOrderIrrelevant(b: BasemapSetting)
    ensures CreateBaseLayer(b) ==
      match ResolveMapConfig(b)
      case Custom(url) => TileLayer(url, None, None)
      case Stamen => if b.Text? && b.s in EsriBasemaps then EsriBasemap(b.s) else DefaultLayer
  {
    EsriNamesAreNotTemplates();
  }

  /** The default URL is itself a valid template ... */
  lemma StamenUrlIsTemplate()
    ensures IsTileTemplate(StamenTerrainUrl)
  {
    assert OccursAt("{z}", StamenTerrainUrl, 50);
    assert OccursAt("{x}", StamenTerrainUrl, 54);
    assert OccursAt("{y}", StamenTerrainUrl, 58);
  }

  /** ... so naming it explicitly yields a custom layer that lacks the default subdomains and attribution. */
  lemma ExplicitStamenUrlDiffersFromDefault()
    ensures CreateBaseLayer(Text(StamenTerrainUrl)) == TileLayer(StamenTerrainUrl, None, None)
    ensures CreateBaseLayer(Text(StamenTerrainUrl)) != DefaultLayer
  {
    StamenUrlIsTemplate();
    assert StamenTerrainUrl !in EsriBasemaps by {
      assert forall name :: name in EsriBasemaps ==> |name| < |StamenTerrainUrl|;
    }
  }
}

=== FILE: feature_render.dfy ===
/**
 Rendering of feature attributes into popup HTML (`singleFeature` and `manyFeatures`).
 Values are generic: how the host turns one into text (string concatenation) and how the
 locale date formatter renders it are both supplied by a `Formatter`, together with the list
 of attribute names that hold dates.
 */
module FeatureRender {
  import opened Wrappers
  import opened JsRuntime

  /** A feature's attributes as `[key, value]` pairs, in `Object.keys` order. */
  datatype Feature<V> = Feature(properties: seq<(string, V)>)

  /**
   The context rendering depends on: the attribute names to show as dates, the host's
   conversion of a value to text, and `new Date(value).toLocaleString(...)`.
   */
  datatype Formatter<-V> = Formatter(dateFields: seq<string>, show: V -> string, formatDate: V -> string)

  const LineSeparator: string := "<br/>"

  /** The text shown for one attribute: the formatted date for date fields, the raw value otherwise. */
  function DisplayValue<V>(fmt: Formatter<V>, key: string, value: V): (text: string)
    ensures key in fmt.dateFields ==> text == fmt.formatDate(value)
    ensures key !in fmt.dateFields ==> text == fmt.show(value)
  {
    if SeqIndexOf(fmt.dateFields, key) > -1 then fmt.formatDate(value) else fmt.show(value)
  }

  /** One `<span>` line for one attribute. */
  function Line<V>(fmt: Formatter<V>, entry: (string, V)): string
  {
    "<span><strong>" + entry.0 + ":</strong> " + DisplayValue(fmt, entry.0, entry.1) + "</span>"
  }

  function Lines<V>(fmt: Formatter<V>, properties: seq<(string, V)>): seq<string>
  {
    seq(|properties|, i requires 0 <= i < |properties| => Line(fmt, properties[i]))
  }

  /** `singleFeature(item)`. */
  function SingleFeature<V>(fmt: Formatter<V>, f: Feature<V>): string
  {
    "<div>" + Join(Lines(fmt, f.properties), LineSeparator) + "</div>"
  }

  /** The numbered heading that opens the block of the feature at 1-based position `index`. */
  function FeatureHeading(index: nat): string
  {
    "<div><strong>Feature: " + NumberToString(index) + "</strong>"
  }

  /** The block `manyFeatures` writes for the feature at 1-based position `index`. */
  function FeatureBlock<V>(fmt: Formatter<V>, index: nat, f: Feature<V>): string
  {
    FeatureHeading(index) + "<div>" + SingleFeature(fmt, f) + "</div></div><br/>"
  }

  function Blocks<V>(fmt: Formatter<V>, features: seq<Feature<V>>): seq<string>
  {
    seq(|features|, i requires 0 <= i < |features| => FeatureBlock(fmt, i + 1, features[i]))
  }

  /** `manyFeatures(featureCollection)`. */
  function ManyFeatures<V>(fmt: Formatter<V>, features: seq<Feature<V>>): string
  {
    "<div>" + Join(Blocks(fmt, features), "") + "</div>"
  }

  /** Where the line of attribute `i` starts inside `SingleFeature`. */
  function LineOffset<V>(fmt: Formatter<V>, properties: seq<(string, V)>, i: nat): nat
    requires i <= |properties|
  {
    |"<div>"| + JoinOffset(Lines(fmt, properties), LineSeparator, i)
  }

  /**
   Every attribute is listed, in key order: line `i` names key `i` and shows its value
   (the date rendering for date fields, the raw text otherwise, with no escaping).
   */
  lemma SingleFeatureListsEveryAttribute<V>(fmt: Formatter<V>, f: Feature<V>, i: nat)
    requires i < |f.properties|
    ensures var r := SingleFeature(fmt, f);
            var (key, value) := f.properties[i];
            var at := LineOffset(fmt, f.properties, i);
            && OccursAt("<span><strong>" + key + ":</strong> ", r, at)
            && OccursAt(if key in fmt.dateFields then fmt.formatDate(value) else fmt.show(value), r, at + |"<span><strong>"| + |key| + |":</strong> "|)
  {
    var lines := Lines(fmt, f.properties);
    var (key, value) := f.properties[i];
    var head := "<span><strong>" + key + ":</strong> ";
    var text := DisplayValue(fmt, key, value);
    var at := LineOffset(fmt, f.properties, i);
    assert lines[i] == head + (text + "</span>");
    PartInJoin(lines, LineSeparator, i);
    OccursWrapped(lines[i], "<div>", Join(lines, LineSeparator), "</div>", JoinOffset(lines, LineSeparator, i));
    OccursSplit(head, text + "</span>", SingleFeature(fmt, f), at);
    OccursSplit(text, "</span>", SingleFeature(fmt, f), at + |head|);
  }

  /** Adding an attribute adds exactly one line, after a separator, and leaves the earlier lines alone. */
  lemma SingleFeatureAppend<V>(fmt: Formatter<V>, properties: seq<(string, V)>, entry: (string, V))
    ensures SingleFeature(fmt, Feature(properties + [entry])) ==
      if |properties| == 0 then "<div>" + Line(fmt, entry) + "</div>"
      else "<div>" + Join(Lines(fmt, properties), LineSeparator) + LineSeparator + Line(fmt, entry) + "</div>"
  {
    assert Lines(fmt, properties + [entry]) == Lines(fmt, properties) + [Line(fmt, entry)];
    JoinSnoc(Lines(fmt, properties), LineSeparator, Line(fmt, entry));
  }

  /** A feature without attributes renders as an empty `<div>`. */
  lemma SingleFeatureEmpty<V>(fmt: Formatter<V>)
    ensures SingleFeature(fmt, Feature([])) == "<div></div>"
  {
  }

  /** Where the block of the feature at 0-based position `i` starts inside `ManyFeatures`. */
  function BlockOffset<V>(fmt: Formatter<V>, features: seq<Feature<V>>, i: nat): nat
    requires i <= |features|
  {
    |"<div>"| + JoinOffset(Blocks(fmt, features), "", i)
  }

  /**
   Block `i` (0-based) sits right after the blocks before it, carries the heading
   `Feature: <i + 1>`, and wraps the rendering of feature `i`.
   */
  lemma ManyFeaturesBlockAt<V>(fmt: Formatter<V>, features: seq<Feature<V>>, i: nat)
    requires i < |features|
    ensures var r := ManyFeatures(fmt, features);
            var at := BlockOffset(fmt, features, i);
            && OccursAt(FeatureBlock(fmt, i + 1, features[i]), r, at)
            && OccursAt(FeatureHeading(i + 1), r, at)
  {
    var blocks := Blocks(fmt, features);
    var heading := FeatureHeading(i + 1);
    var rest := "<div>" + SingleFeature(fmt, features[i]) + "</div></div><br/>";
    assert |blocks| == |features|;
    assert blocks[i] == FeatureBlock(fmt, i + 1, features[i]);
    assert blocks[i] == heading + rest;
    PartInJoin(blocks, "", i);
    OccursWrapped(blocks[i], "<div>", Join(blocks, ""), "</div>", JoinOffset(blocks, "", i));
    OccursSplit(heading, rest, ManyFeatures(fmt, features), BlockOffset(fmt, features, i));
  }

  /** Adding a feature adds exactly one block, numbered one past the previous count, at the end. */
  lemma ManyFeaturesAppend<V>(fmt: Formatter<V>, features: seq<Feature<V>>, f: Feature<V>)
    ensures ManyFeatures(fmt, features + [f]) ==
      "<div>" + Join(Blocks(fmt, features), "") + FeatureBlock(fmt, |features| + 1, f) + "</div>"
  {
    var all := features + [f];
    assert Blocks(fmt, all) == Blocks(fmt, features) + [FeatureBlock(fmt, |features| + 1, f)];
    JoinSnoc(Blocks(fmt, features), "", FeatureBlock(fmt, |features| + 1, f));
  }

  /** Joining with the empty separator just concatenates: the blocks tile the inside exactly. */
  lemma {:induction false} ManyFeaturesLength<V>(fmt: Formatter<V>, features: seq<Feature<V>>)
    ensures |ManyFeatures(fmt, features)| == |"<div>"| + |"</div>"| + TotalLength(Blocks(fmt, features))
  {
    JoinEmptyLength(Blocks(fmt, features));
  }

  function TotalLength(parts: seq<string>): nat
  {
    if |parts| == 0 then 0 else |parts[0]| + TotalLength(parts[1..])
  }

  lemma {:induction false} JoinEmptyLength(parts: seq<string>)
    ensures |Join(parts, "")| == TotalLength(parts)
  {
    if |parts| > 1 {
      JoinEmptyLength(parts[1..]);
    }
  }
}

=== FILE: focus_trap.dfy ===
/**
 The keyboard rules attached to the document while a popup is open: the Tab / Shift+Tab
 focus trap, the return of focus that strays outside the popup, and closing on Escape.
 The DOM is reduced to element identities: the popup's container, the elements it contains,
 and its content and close-button nodes when `querySelector` finds them.
 */
module FocusTrap {
  import opened Wrappers
  import opened JsRuntime

  /** An element of the page, by identity. */
  type Element = nat

  /** What the handlers can see of the open popup's DOM. */
  datatype PopupDom = PopupDom(
    container: Element,
    descendants: set<Element>,
    content: Option<Element>,
    closeButton: Option<Element>)
  {
    /** `container.contains(e)`, which is true of the container itself. */
    predicate Holds(e: Element) {
      e == container || e in descendants
    }

    /** `querySelector` only ever finds nodes inside the container. */
    predicate WellFormed() {
      && (content.Some? ==> content.value in descendants)
      && (closeButton.Some? ==> closeButton.value in descendants)
    }
  }

  /**
   `map._popup` while a popup is open: its element (`getElement()`, absent before it is laid
   out) and its `closeOnEscapeKey` option (`Some(false)` only when the option is literally `false`).
   */
  datatype MapPopup = MapPopup(element: Option<PopupDom>, closeOnEscapeKey: Option<bool>)

  datatype KeyEvent = KeyEvent(keyCode: int, shiftKey: bool)

  const TabKey: int := 9
  const EscapeKey: int := 27

  /** What a focus handler does: nothing, move focus (after `preventDefault` for keys), or throw on a missing element. */
  datatype FocusOutcome = Ignored | MoveFocus(target: Element) | TypeError

  /** The first tabbable element of the popup: its content, else its close button. */
  function First(dom: PopupDom): Option<Element>
  {
    if dom.content.Some? then dom.content else dom.closeButton
  }

  /** The last tabbable element of the popup: its close button, else its content. */
  function Last(dom: PopupDom): Option<Element>
  {
    if dom.closeButton.Some? then dom.closeButton else dom.content
  }

  /** Where `popupopen` sends focus (one tick later): the content node, else the container. */
  function OpenFocusTarget(dom: PopupDom): (e: Element)
    ensures dom.content.Some? ==> e == dom.content.value
    ensures dom.content.None? ==> e == dom.container
    ensures dom.WellFormed() ==> dom.Holds(e)
  {
    if dom.content.Some? then dom.content.value else dom.container
  }

  /** The initial focus lands inside the popup, so it never sets off the focus-return handler. */
  lemma OpenFocusNotReturned(dom: PopupDom, esc: Option<bool>)
    requires dom.WellFormed()
    ensures FocusReturn(Some(MapPopup(Some(dom), esc)), OpenFocusTarget(dom)) == Ignored
  {
  }

  /** The keydown focus-trap handler. */
  function TabTrap(ev: KeyEvent, popup: Option<MapPopup>, active: Element): (r: FocusOutcome)
    ensures ev.keyCode != TabKey || popup.None? ==> r == Ignored
    ensures r.TypeError? <==> ev.keyCode == TabKey && popup.Some? && popup.value.element.None?
    ensures r.MoveFocus? ==>
      var dom := popup.value.element.value;
      && dom.Holds(active)
      && (ev.shiftKey ==> First(dom) == Some(active) && r.target == Last(dom).value)
      && (!ev.shiftKey ==> Last(dom) == Some(active) && r.target == First(dom).value)
  {
    if ev.keyCode != TabKey || popup.None? then Ignored
    else if popup.value.element.None? then TypeError
    else
      var c := popup.value.element.value;
      var first := First(c);
      var last := Last(c);
      if first.None? || last.None? then Ignored
      else if !c.Holds(active) then Ignored
      else if ev.shiftKey then
        if active == first.value then MoveFocus(last.value) else Ignored
      else
        if active == last.value then MoveFocus(first.value) else Ignored
  }

  /** Tab wraps from the last element to the first, and Shift+Tab from the first to the last. */
  lemma TabTrapWraps(dom: PopupDom, esc: Option<bool>, shift: bool)
    requires dom.WellFormed()
    requires dom.content.Some? || dom.closeButton.Some?
    ensures var p := Some(MapPopup(Some(dom), esc));
            if shift then TabTrap(KeyEvent(TabKey, shift), p, First(dom).value) == MoveFocus(Last(dom).value)
            else TabTrap(KeyEvent(TabKey, shift), p, Last(dom).value) == MoveFocus(First(dom).value)
  {
  }

  /** The trap never sends focus outside the popup. */
  lemma TabTrapStaysInside(ev: KeyEvent, popup: Option<MapPopup>, active: Element)
    requires popup.Some? && popup.value.element.Some? && popup.value.element.value.WellFormed()
    ensures TabTrap(ev, popup, active).MoveFocus? ==>
      popup.value.element.value.Holds(TabTrap(ev, popup, active).target)
  {
  }

  /** Shift+Tab undoes a Tab wrap and Tab undoes a Shift+Tab wrap. */
  lemma TabTrapInverse(popup: Option<MapPopup>, active: Element, shift: bool)
    requires popup.Some? && popup.value.element.Some? && popup.value.element.value.WellFormed()
    ensures var r := TabTrap(KeyEvent(TabKey, shift), popup, active);
            r.MoveFocus? ==> TabTrap(KeyEvent(TabKey, !shift), popup, r.target) == MoveFocus(active)
  {
  }

  /** Tab on any element other than the last one (or outside the popup) is left to the browser. */
  lemma TabTrapOnlyAtEdges(popup: Option<MapPopup>, active: Element, shift: bool)
    requires popup.Some? && popup.value.element.Some?
    ensures var dom := popup.value.element.value;
            Some(active) != (if shift then First(dom) else Last(dom)) ==>
              TabTrap(KeyEvent(TabKey, shift), popup, active) == Ignored
  {
  }

  /** The focusin handler: focus landing outside the popup is sent back to the content node. */
  function FocusReturn(popup: Option<MapPopup>, target: Element): (r: FocusOutcome)
    ensures popup.None? ==> r == Ignored
    ensures r.TypeError? <==> popup.Some? && popup.value.element.None?
    ensures r.MoveFocus? <==>
      popup.Some? && popup.value.element.Some? && !popup.value.element.value.Holds(target)
      && popup.value.element.value.content.Some?
    ensures r.MoveFocus? ==> r.target == popup.value.element.value.content.value
  {
    if popup.None? then Ignored
    else if popup.value.element.None? then TypeError
    else
      var c := popup.value.element.value;
      if c.Holds(target) then Ignored
      else if c.content.Some? then MoveFocus(c.content.value)
      else Ignored
  }

  /** Refocusing settles at once: the element focus is sent back to does not trigger another return. */
  lemma FocusReturnSettles(popup: Option<MapPopup>, target: Element)
    requires popup.Some? && popup.value.element.Some? && popup.value.element.value.WellFormed()
    ensures var r := FocusReturn(popup, target);
            r.MoveFocus? ==> popup.value.element.value.Holds(r.target) && FocusReturn(popup, r.target) == Ignored
  {
  }

  /** The Escape handler: whether it closes the popup (and stops the event). */
  function EscapeCloses(ev: KeyEvent, popup: Option<MapPopup>): (closes: bool)
    ensures closes ==> ev.keyCode == EscapeKey && popup.Some?
  {
    ev.keyCode == EscapeKey && popup.Some? && popup.value.closeOnEscapeKey != Some(false)
  }

  /** Only a literal `closeOnEscapeKey: false` keeps Escape from closing an open popup. */
  lemma EscapeHonoursOption(popup: MapPopup, shift: bool)
    ensures EscapeCloses(KeyEvent(EscapeKey, shift), Some(popup)) <==> popup.closeOnEscapeKey != Some(false)
  {
  }

  /** No key press both closes the popup and moves focus inside it. */
  lemma EscapeAndTrapDisjoint(ev: KeyEvent, popup: Option<MapPopup>, active: Element)
    ensures !(EscapeCloses(ev, popup) && TabTrap(ev, popup, active).MoveFocus?)
  {
  }
}

=== FILE: js_runtime.dfy ===
/**
 The few JavaScript built-ins the widget helper relies on, stated over Dafny values:
 `String.prototype.indexOf`, `Array.prototype.indexOf`, `Array.prototype.join` and the
 conversion of a non-negative integer to its decimal string (what `'…' + (i + 1)` produces).
 */
module JsRuntime {

  /** `pat` occurs in `s` starting at position `i`. */
  predicate OccursAt(pat: string, s: string, i: int) {
    0 <= i && i + |pat| <= |s| && s[i..i + |pat|] == pat
  }

  /** `pat` occurs somewhere in `s`. */
  predicate Contains(s: string, pat: string) {
    exists i :: 0 <= i <= |s| && OccursAt(pat, s, i)
  }

  /** An occurrence of `a + b` is an occurrence of `a` at the same place and of `b` right after it. */
  lemma OccursSplit(a: string, b: string, s: string, i: int)
    requires OccursAt(a + b, s, i)
    ensures OccursAt(a, s, i) && OccursAt(b, s, i + |a|)
  {
    assert s[i..i + |a|] == s[i..i + |a + b|][..|a|];
    assert s[i + |a|..i + |a| + |b|] == s[i..i + |a + b|][|a|..];
  }

  /** An occurrence inside `t` is still one, shifted, once `t` is wrapped. */
  lemma OccursWrapped(pat: string, pre: string, t: string, post: string, i: int)
    requires OccursAt(pat, t, i)
    ensures OccursAt(pat, pre + t + post, |pre| + i)
  {
    var s := pre + t + post;
    assert s[|pre| + i..|pre| + i + |pat|] == t[i..i + |pat|];
  }

  /** A pattern whose first character does not appear in `s` does not occur in it. */
  lemma AbsentFirstChar(pat: string, s: string)
    requires |pat| > 0 && pat[0] !in s
    ensures !Contains(s, pat)
  {
    forall i | 0 <= i <= |s|
      ensures !OccursAt(pat, s, i)
    {
      if i + |pat| <= |s| {
        assert s[i..i + |pat|][0] == s[i];
      }
    }
  }

  /** `s.indexOf(pat, from)`: the first position at or after `from` where `pat` occurs, or -1. */
  function IndexOfFrom(s: string, pat: string, from: nat): (r: int)
    decreases |s| - from + 1
    ensures r == -1 || (from <= r && OccursAt(pat, s, r))
    ensures r == -1 <==> forall i :: from <= i ==> !OccursAt(pat, s, i)
    ensures forall i :: from <= i < r ==> !OccursAt(pat, s, i)
  {
    if from + |pat| > |s| then -1
    else if s[from..from + |pat|] == pat then from
    else IndexOfFrom(s, pat, from + 1)
  }

  /** `s.indexOf(pat)`. */
  function IndexOf(s: string, pat: string): (r: int)
    ensures r == -1 <==> !Contains(s, pat)
    ensures r != -1 ==> OccursAt(pat, s, r) && forall i :: 0 <= i < r ==> !OccursAt(pat, s, i)
  {
    IndexOfFrom(s, pat, 0)
  }

  /** `xs.indexOf(x)` on an array: the first index holding `x`, or -1. */
  function SeqIndexOf<T(==)>(xs: seq<T>, x: T): (r: int)
    ensures r == -1 <==> x !in xs
    ensures r != -1 ==> 0 <= r < |xs| && xs[r] == x && x !in xs[..r]
  {
    if |xs| == 0 then -1
    else if xs[0] == x then 0
    else
      var k := SeqIndexOf(xs[1..], x);
      if k == -1 then -1
      else
        assert xs[..k + 1] == [xs[0]] + xs[1..][..k];
        k + 1
  }

  /** `parts.join(sep)`. */
  function Join(parts: seq<string>, sep: string): string
  {
    if |parts| == 0 then ""
    else if |parts| == 1 then parts[0]
    else parts[0] + sep + Join(parts[1..], sep)
  }

  /** Joining splits at every interior boundary: the parts before `k`, one separator, the rest. */
  lemma {:induction false} JoinSplit(parts: seq<string>, sep: string, k: nat)
    requires 0 < k < |parts|
    ensures Join(parts, sep) == Join(parts[..k], sep) + sep + Join(parts[k..], sep)
  {
    if k == 1 {
      assert parts[..1] == [parts[0]];
      assert parts[1..] == parts[k..];
    } else {
      JoinSplit(parts[1..], sep, k - 1);
      assert parts[1..][..k - 1] == parts[..k][1..];
      assert parts[1..][k - 1..] == parts[k..];
    }
  }

  /** Appending one part adds exactly one separator and that part at the end. */
  lemma JoinSnoc(parts: seq<string>, sep: string, p: string)
    ensures Join(parts + [p], sep) == if |parts| == 0 then p else Join(parts, sep) + sep + p
  {
    var all := parts + [p];
    if |parts| > 0 {
      JoinSplit(all, sep, |parts|);
      assert all[..|parts|] == parts;
      assert all[|parts|..] == [p];
    } else {
      assert all == [p];
    }
  }

  /** Every part appears verbatim in the joined string, right after the parts before it and their separators. */
  lemma PartInJoin(parts: seq<string>, sep: string, i: nat)
    requires i < |parts|
    ensures OccursAt(parts[i], Join(parts, sep), JoinOffset(parts, sep, i))
  {
    var rest := parts[i..];
    assert rest[0] == parts[i];
    var tail := Join(rest, sep);
    assert tail[..|parts[i]|] == parts[i] by {
      if |rest| > 1 {
        assert tail == parts[i] + (sep + Join(rest[1..], sep));
      }
    }
    if i == 0 {
      assert parts == rest;
    } else {
      JoinSplit(parts, sep, i);
      var pre := Join(parts[..i], sep) + sep;
      assert Join(parts, sep) == pre + tail;
      assert Join(parts, sep)[|pre|..|pre| + |parts[i]|] == tail[..|parts[i]|];
    }
  }

  /** Where part `i` starts inside `Join(parts, sep)`. */
  function JoinOffset(parts: seq<string>, sep: string, i: nat): nat
    requires i <= |parts|
  {
    if i == 0 then 0 else |Join(parts[..i], sep)| + |sep|
  }

  predicate IsDigit(c: char) {
    '0' <= c <= '9'
  }

  /** The character written for digit `d`. */
  function DigitChar(d: nat): (c: char)
    requires d < 10
    ensures IsDigit(c)
  {
    (('0' as int) + d) as char
  }

  /** The digit a decimal character stands for. */
  function DigitValue(c: char): (d: nat)
    requires IsDigit(c)
    ensures d < 10 && DigitChar(d) == c
  {
    (c as int) - ('0' as int)
  }

  /** `String(n)` for a non-negative integer `n`: its shortest decimal notation. */
  function NumberToString(n: nat): (s: string)
    ensures |s| > 0
    ensures forall k :: 0 <= k < |s| ==> IsDigit(s[k])
    ensures |s| > 1 ==> s[0] != '0'
  {
    if n < 10 then [DigitChar(n)]
    else NumberToString(n / 10) + [DigitChar(n % 10)]
  }

  /** The value of a string of decimal digits. */
  function ParseDecimal(s: string): nat
    requires forall k :: 0 <= k < |s| ==> IsDigit(s[k])
  {
    if |s| == 0 then 0
    else 10 * ParseDecimal(s[..|s| - 1]) + DigitValue(s[|s| - 1])
  }

  /** Reading back the decimal notation of `n` gives `n`. */
  lemma {:induction false} ParseNumberToString(n: nat)
    ensures ParseDecimal(NumberToString(n)) == n
  {
    var s := NumberToString(n);
    if n < 10 {
      assert s[..0] == [];
    } else {
      ParseNumberToString(n / 10);
      assert s[..|s| - 1] == NumberToString(n / 10);
      assert n == 10 * (n / 10) + n % 10;
    }
  }

  /** Distinct numbers have distinct decimal notations. */
  lemma NumberToStringInjective(a: nat, b: nat)
    ensures NumberToString(a) == NumberToString(b) ==> a == b
  {
    ParseNumberToString(a);
    ParseNumberToString(b);
  }
}

=== FILE: popup_content.dfy ===
/**
 What a layer's popup shows after a feature query: the content callback of
 `commonDynamicLayerInfo` and the click handler of `commonTiledLayerInfo`.
 The asynchronous query is reduced to its outcome, an error or a feature collection.
 */
module PopupContent {
  import opened Wrappers
  import opened JsRuntime
  import opened FeatureRender

  /** A query result; `features` is `None` when the property is missing or not an array. */
  datatype Collection<V> = Collection(features: Option<seq<Feature<V>>>)

  /** The content callback's answer: `false` (no popup) or an HTML string. */
  datatype PopupResult = NoPopup | Html(html: string)

  const LoadingContent: string := "<span>loading</span>"
  const NoFeaturesContent: string := "<span>No features found</span>"

  /** The collection carries at least one feature (`features && features.length`). */
  predicate HasFeatures<V>(fc: Option<Collection<V>>) {
    fc.Some? && fc.value.features.Some? && |fc.value.features.value| > 0
  }

  /**
   The rendering of a non-empty feature list: a single feature on its own, several as numbered
   blocks. Either way the popup body is one `<div>` element.
   */
  function RenderFeatures<V>(fmt: Formatter<V>, features: seq<Feature<V>>): (html: string)
    requires |features| > 0
    ensures OccursAt("<div>", html, 0)
    ensures OccursAt("</div>", html, |html| - |"</div>"|)
  {
    if |features| == 1 then SingleFeature(fmt, features[0]) else ManyFeatures(fmt, features)
  }

  /**
   The `bindPopup` callback of a dynamic layer. `err` is `None` for a falsy error and
   otherwise the error's text.
   */
  function DynamicLayerContent<V>(fmt: Formatter<V>, err: Option<string>, fc: Option<Collection<V>>): (r: PopupResult)
    ensures r.NoPopup? <==> err.Some? || !HasFeatures(fc)
    ensures r.Html? ==> r.html == RenderFeatures(fmt, fc.value.features.value)
  {
    if err.Some? || fc.None? || fc.value.features.None? || |fc.value.features.value| == 0 then NoPopup
    else if |fc.value.features.value| == 1 then Html(SingleFeature(fmt, fc.value.features.value[0]))
    else Html(ManyFeatures(fmt, fc.value.features.value))
  }

  /** The error message of the tiled-layer handler as the `commonTiledLayerInfo` callback writes it: only the operand right of `&&` survives. */
  function ErrorContentAsWritten(errText: string): string
  {
    var left := "<span><strong>Error</strong>: " + errText;
    if |left| > 0 then errText + "</span>" else left
  }

  /** The error message the handler evidently means to show. */
  function ErrorContent(errText: string): (html: string)
    ensures OccursAt("<span><strong>Error</strong>: ", html, 0)
    ensures OccursAt(errText, html, |"<span><strong>Error</strong>: "|)
    ensures OccursAt("</span>", html, |html| - |"</span>"|)
  {
    "<span><strong>Error</strong>: " + errText + "</span>"
  }

  /** Final tiled-layer content, error branch as written in the source. */
  function TiledLayerContentAsWritten<V>(fmt: Formatter<V>, err: Option<string>, fc: Option<Collection<V>>): (html: string)
    ensures err.Some? ==> html == err.value + "</span>"
    ensures err.None? ==> html == TiledLayerContent(fmt, err, fc)
  {
    if err.Some? then ErrorContentAsWritten(err.value)
    else if !HasFeatures(fc) then NoFeaturesContent
    else RenderFeatures(fmt, fc.value.features.value)
  }

  /** Final tiled-layer content with the error message as intended. */
  function TiledLayerContent<V>(fmt: Formatter<V>, err: Option<string>, fc: Option<Collection<V>>): (html: string)
    ensures err.Some? ==> html == ErrorContent(err.value)
    ensures err.None? && !HasFeatures(fc) ==> html == NoFeaturesContent
    ensures err.None? && HasFeatures(fc) ==> html == RenderFeatures(fmt, fc.value.features.value)
  {
    if err.Some? then ErrorContent(err.value)
    else if fc.None? || fc.value.features.None? || |fc.value.features.value| == 0 then NoFeaturesContent
    else if |fc.value.features.value| == 1 then SingleFeature(fmt, fc.value.features.value[0])
    else ManyFeatures(fmt, fc.value.features.value)
  }

  /**
   The successive contents one click on a tiled layer gives the popup, with the error
   message corrected (the as-written final content is `TiledLayerContentAsWritten`).
   */
  function TiledLayerClick<V>(fmt: Formatter<V>, err: Option<string>, fc: Option<Collection<V>>): seq<string>
  {
    [LoadingContent, TiledLayerContent(fmt, err, fc)]
  }

  /**
   A click always ends on content that differs from the loading placeholder, so the user can
   tell the query has answered; where the dynamic layer shows a popup, the click shows the same HTML.
   */
  lemma TiledLayerClickSettles<V>(fmt: Formatter<V>, err: Option<string>, fc: Option<Collection<V>>)
    ensures var contents := TiledLayerClick(fmt, err, fc);
            && contents[0] == LoadingContent
            && contents[1] != LoadingContent
            && (DynamicLayerContent(fmt, err, fc).Html? ==> contents[1] == DynamicLayerContent(fmt, err, fc).html)
  {
    var last := TiledLayerContent(fmt, err, fc);
    assert LoadingContent[1] == 's' && LoadingContent[6] == 'l';
    if err.Some? {
      assert last[6] == '<';
    } else if !HasFeatures(fc) {
      assert last[6] == 'N';
    } else {
      var features := fc.value.features.value;
      if |features| == 1 {
        assert last == "<div>" + Join(Lines(fmt, features[0].properties), LineSeparator) + "</div>";
      } else {
        assert last == "<div>" + Join(Blocks(fmt, features), "") + "</div>";
      }
      assert last[1] == 'd';
    }
  }

  /** As written, an error whose text is `<span>loading` leaves the popup looking as if it were still loading. */
  lemma ErrorAsWrittenLooksLikeLoading<V>(fmt: Formatter<V>, fc: Option<Collection<V>>)
    ensures TiledLayerContentAsWritten(fmt, Some("<span>loading"), fc) == LoadingContent
  {
  }

  /**
   The two layer kinds agree wherever a dynamic layer shows a popup; where it shows none,
   the tiled layer shows an error or the no-features message instead.
   */
  lemma DynamicAgreesWithTiled<V>(fmt: Formatter<V>, err: Option<string>, fc: Option<Collection<V>>)
    ensures DynamicLayerContent(fmt, err, fc).Html? ==>
      DynamicLayerContent(fmt, err, fc).html == TiledLayerContent(fmt, err, fc)
    ensures DynamicLayerContent(fmt, err, fc).NoPopup? ==>
      TiledLayerContent(fmt, err, fc) == (if err.Some? then ErrorContent(err.value) else NoFeaturesContent)
  {
  }

  /**
   For an error whose text is `timeout`, the as-written content is `timeout</span>`: it
   carries no `Error` label and no opening `<span>` (compare `ErrorContentLabelled`).
   */
  lemma ErrorLabelDropped()
    ensures ErrorContentAsWritten("timeout") == "timeout</span>"
    ensures !Contains(ErrorContentAsWritten("timeout"), "Error")
    ensures !OccursAt("<span>", ErrorContentAsWritten("timeout"), 0)
  {
    var s := "timeout</span>";
    assert s[0] == 't';
    assert 'E' !in s;
    AbsentFirstChar("Error", s);
  }

  /** The intended error content opens a `<span>`, names the error and shows its text, for every error. */
  lemma ErrorContentLabelled(errText: string)
    ensures OccursAt("<span>", ErrorContent(errText), 0)
    ensures Contains(ErrorContent(errText), "Error")
    ensures Contains(ErrorContent(errText), errText)
  {
    var html := ErrorContent(errText);
    var prefix := "<span><strong>Error</strong>: ";
    assert html[..|prefix|] == prefix;
    assert html[0..6] == prefix[0..6];
    assert html[14..19] == prefix[14..19];
    assert OccursAt("Error", html, 14);
    assert OccursAt(errText, html, |prefix|);
  }
}

=== FILE: popup_lifecycle.dfy ===
/**
 The `popupopen` / `popupclose` listener bookkeeping of `agsCreatemap`. Three variables hold
 the current Escape handler and the two focus-trap handlers; opening a popup creates new
 handler functions, stores them and adds them to the document, and closing removes whatever
 the variables hold and clears them. Each new handler function is a fresh identity.
 */
module PopupLifecycle {
  import opened Wrappers
  import opened JsRuntime
  import FocusTrap

  /** Which of the three handlers a listener is. */
  datatype Role = EscapeHandler | TrapKeydown | TrapFocusin

  datatype EventType = Keydown | Focusin

  function EventOf(role: Role): EventType
  {
    match role
    case EscapeHandler => Keydown
    case TrapKeydown => Keydown
    case TrapFocusin => Focusin
  }

  /** A handler function added to the document; `id` tells apart functions created by different opens. */
  datatype Listener = Listener(role: Role, id: nat)

  /**
   The handler variables, the document's listeners (adding the same function twice is a
   no-op, so a set), and the identity the next created handler gets.
   */
  datatype Session = Session(
    escape: Option<Listener>,
    keydownTrap: Option<Listener>,
    focusinTrap: Option<Listener>,
    document: set<Listener>,
    nextId: nat)

  /** A freshly created map: no handler stored, none registered. */
  const Initial: Session := Session(None, None, None, {}, 0)

  function AsSet(h: Option<Listener>): set<Listener>
  {
    if h.Some? then {h.value} else {}
  }

  /** The listeners the three variables currently refer to. */
  function Held(s: Session): set<Listener>
  {
    AsSet(s.escape) + AsSet(s.keydownTrap) + AsSet(s.focusinTrap)
  }

  /** All three variables are null. */
  predicate Cleared(s: Session) {
    s.escape.None? && s.keydownTrap.None? && s.focusinTrap.None?
  }

  /** Every registered listener was created before `nextId`. */
  predicate FreshIds(s: Session) {
    forall l :: l in s.document ==> l.id < s.nextId
  }

  /** The variables each hold a handler of their own role. */
  predicate RolesMatch(s: Session) {
    && (s.escape.Some? ==> s.escape.value.role == EscapeHandler)
    && (s.keydownTrap.Some? ==> s.keydownTrap.value.role == TrapKeydown)
    && (s.focusinTrap.Some? ==> s.focusinTrap.value.role == TrapFocusin)
  }

  /** Registration and variables agree: exactly the held handlers are on the document. */
  predicate Paired(s: Session) {
    s.document == Held(s) && FreshIds(s) && RolesMatch(s)
  }

  /** The handlers a document event of type `t` reaches. */
  function Reached(s: Session, t: EventType): set<Role>
  {
    set l | l in s.document && EventOf(l.role) == t :: l.role
  }

  /** `popupopen`: the trap handlers only when the popup has a container, the Escape handler always. */
  function OnPopupOpen(s: Session, hasContainer: bool): (t: Session)
    ensures t.nextId > s.nextId
    ensures t.escape.Some? && t.escape.value.role == EscapeHandler && t.escape.value.id >= s.nextId
    ensures hasContainer ==>
      && t.keydownTrap.Some? && t.keydownTrap.value.role == TrapKeydown && t.keydownTrap.value.id >= s.nextId
      && t.focusinTrap.Some? && t.focusinTrap.value.role == TrapFocusin && t.focusinTrap.value.id >= s.nextId
    ensures !hasContainer ==> t.keydownTrap == s.keydownTrap && t.focusinTrap == s.focusinTrap
    ensures t.document == s.document + (if hasContainer then Held(t) else {t.escape.value})
  {
    var keydown := Listener(TrapKeydown, s.nextId);
    var focusin := Listener(TrapFocusin, s.nextId + 1);
    var esc := Listener(EscapeHandler, s.nextId + 2);
    if hasContainer then
      Session(Some(esc), Some(keydown), Some(focusin), s.document + {keydown, focusin, esc}, s.nextId + 3)
    else
      Session(Some(esc), s.keydownTrap, s.focusinTrap, s.document + {esc}, s.nextId + 3)
  }

  /** `removeEventListener` on a variable if it is set. */
  function Unregister(document: set<Listener>, h: Option<Listener>): set<Listener>
  {
    if h.Some? then document - {h.value} else document
  }

  /** `popupclose`: remove and clear each handler that is set. */
  function OnPopupClose(s: Session): (t: Session)
    ensures Cleared(t)
    ensures t.document == s.document - Held(s)
    ensures t.nextId == s.nextId
  {
    var d := Unregister(Unregister(Unregister(s.document, s.escape), s.keydownTrap), s.focusinTrap);
    Session(None, None, None, d, s.nextId)
  }

  /** A second close changes nothing. */
  lemma CloseIdempotent(s: Session)
    ensures OnPopupClose(OnPopupClose(s)) == OnPopupClose(s)
  {
  }

  /** Closing from a paired state leaves no listener on the document. */
  lemma CloseLeavesNoListener(s: Session)
    requires Paired(s)
    ensures OnPopupClose(s).document == {}
    ensures Paired(OnPopupClose(s))
    ensures Reached(OnPopupClose(s), Keydown) == {} && Reached(OnPopupClose(s), Focusin) == {}
  {
  }

  /** Opening after a close registers exactly the new handlers and keeps the pairing. */
  lemma OpenKeepsPairing(s: Session, hasContainer: bool)
    requires Paired(s) && Cleared(s)
    ensures Paired(OnPopupOpen(s, hasContainer))
    ensures Reached(OnPopupOpen(s, hasContainer), Keydown) ==
      if hasContainer then {EscapeHandler, TrapKeydown} else {EscapeHandler}
    ensures Reached(OnPopupOpen(s, hasContainer), Focusin) ==
      if hasContainer then {TrapFocusin} else {}
  {
    var t := OnPopupOpen(s, hasContainer);
    assert s.document == {};
    var keydown := Listener(TrapKeydown, s.nextId);
    var focusin := Listener(TrapFocusin, s.nextId + 1);
    var esc := Listener(EscapeHandler, s.nextId + 2);
    if hasContainer {
      assert t.document == {keydown, focusin, esc};
      assert EventOf(keydown.role) == Keydown && EventOf(esc.role) == Keydown;
      assert keydown.role in Reached(t, Keydown) && esc.role in Reached(t, Keydown);
      assert focusin.role in Reached(t, Focusin);
    } else {
      assert t.document == {esc};
      assert esc.role in Reached(t, Keydown);
    }
  }

  /** Open then close puts the document back as it was, whatever else is registered on it. */
  lemma OpenCloseRestores(s: Session, hasContainer: bool)
    requires Cleared(s) && FreshIds(s)
    ensures OnPopupClose(OnPopupOpen(s, hasContainer)).document == s.document
  {
    var t := OnPopupOpen(s, hasContainer);
    forall l | l in s.document
      ensures l !in Held(t)
    {
    }
  }

  /** The map events that drive the bookkeeping. */
  datatype MapEvent = PopupOpen(hasContainer: bool) | PopupClose

  function Step(s: Session, e: MapEvent): Session
  {
    match e
    case PopupOpen(c) => OnPopupOpen(s, c)
    case PopupClose => OnPopupClose(s)
  }

  function Run(s: Session, events: seq<MapEvent>): Session
    decreases |events|
  {
    if |events| == 0 then s else Run(Step(s, events[0]), events[1..])
  }

  /**
   Every open comes after a close. Leaflet is expected to close the open popup (firing
   `popupclose`) before it opens another; it does so for popups whose `autoClose` option is
   left at its default.
   */
  predicate CloseBeforeOpen(s: Session, events: seq<MapEvent>)
    decreases |events|
  {
    |events| == 0 ||
    ((events[0].PopupOpen? ==> Cleared(s)) && CloseBeforeOpen(Step(s, events[0]), events[1..]))
  }

  /** At most three handlers are ever held. */
  lemma HeldAtMostThree(s: Session)
    ensures |Held(s)| <= 3
  {
    assert |AsSet(s.escape)| <= 1 && |AsSet(s.keydownTrap)| <= 1 && |AsSet(s.focusinTrap)| <= 1;
    assert |AsSet(s.escape) + AsSet(s.keydownTrap)| <= 2;
  }

  /**
   Along any sequence of opens and closes in which every open follows a close, the registered
   listeners are exactly the held handlers, never more than three, and no listener leaks.
   */
  lemma {:induction false} RunKeepsPairing(s: Session, events: seq<MapEvent>)
    requires Paired(s) && CloseBeforeOpen(s, events)
    ensures Paired(Run(s, events))
    ensures |Run(s, events).document| <= 3
    decreases |events|
  {
    if |events| == 0 {
      HeldAtMostThree(s);
    } else {
      var t := Step(s, events[0]);
      match events[0] {
        case PopupOpen(c) => OpenKeepsPairing(s, c);
        case PopupClose => CloseLeavesNoListener(s);
      }
      RunKeepsPairing(t, events[1..]);
    }
  }

  /** Without the close in between, the first popup's handlers stay registered after the second closes. */
  lemma OpenTwiceLeaks()
    ensures OnPopupClose(OnPopupOpen(OnPopupOpen(Initial, true), true)).document ==
      {Listener(TrapKeydown, 0), Listener(TrapFocusin, 1), Listener(EscapeHandler, 2)}
  {
    var once := OnPopupOpen(Initial, true);
    var twice := OnPopupOpen(once, true);
    assert twice.document == once.document + Held(twice);
    assert once.document !! Held(twice);
  }

  /** A keydown closes the popup when the Escape handler is registered and its rule fires. */
  predicate KeydownCloses(s: Session, ev: FocusTrap.KeyEvent, popup: Option<FocusTrap.MapPopup>) {
    EscapeHandler in Reached(s, Keydown) && FocusTrap.EscapeCloses(ev, popup)
  }

  /** While a popup is open Escape closes it; once it has been closed Escape does nothing. */
  lemma EscapeOnlyWhileOpen(s: Session, hasContainer: bool, shift: bool, popup: FocusTrap.MapPopup)
    requires Paired(s) && Cleared(s)
    requires popup.closeOnEscapeKey != Some(false)
    ensures KeydownCloses(OnPopupOpen(s, hasContainer), FocusTrap.KeyEvent(FocusTrap.EscapeKey, shift), Some(popup))
    ensures !KeydownCloses(OnPopupClose(OnPopupOpen(s, hasContainer)),
                           FocusTrap.KeyEvent(FocusTrap.EscapeKey, shift), Some(popup))
  {
    OpenKeepsPairing(s, hasContainer);
    CloseLeavesNoListener(OnPopupOpen(s, hasContainer));
  }
}

=== FILE: wrappers.dfy ===
/** The optional-value datatype the model uses for `undefined`, `null` and other falsy values. */
module Wrappers {

  /** A falsy value the source treats as absent, or a present value. */
  datatype Option<+T> = None | Some(value: T)
}
